=== FILE: README.md ===
# kvs: a Dafny model of the log-structured key-value store and its request loop

This project models the sequential core of a small key-value server written in
Rust, in four parts.

1. **The log-structured engine** (`Store` in project-3). It appends `Set` and
   `Remove` records to per-generation logs. It keeps an ordered index from key
   to the `(generation, offset, length)` of the record that set it, and
   counts superseded bytes in `uncompacted`.
2. **The replay fold of `open`** (project-2). It walks the sorted generation
   list, threads one index through a per-generation `load`, sums the garbage
   `load` reports, and keeps one reader per generation. It then picks the next
   writer generation.
3. **The plain in-memory map** (project-1). It is the reference the log
   engine is proved against.
4. **The per-connection request loop** of both servers (project-3 and
   project-4), with the project-3 accept loop. Each decoded request runs on
   the engine, and the result becomes a response whose error is flattened to
   its display text. The response is then written and flushed.

Each generation's log is an in-memory byte sequence. The engine's operations
are pure functions from store to store. The servers take any engine as a
state machine (`Protocol.Engine<S>`). The request stream is given as the
sequence of its decode results. Whether writing the n-th response succeeds is
given as a function `link`.

The serde_json encoding is replaced by the small self-delimiting codec in
`codec.dfy`. The rest of the model uses only three facts about it, all proved:
every record encodes to a non-empty byte string, decoding exactly those bytes
gives the record back, and an empty byte string decodes to no record. The last
fact matches serde_json, whose `from_reader` fails with an end-of-input error
on an empty reader.

The main results:
- `Refinement.Wf` is the engine's invariant. Every index entry for key `k`
  names bytes inside its generation's log that decode to `Set{k, _}`, and the
  writer sits at the end of the current log. `set` and `remove` preserve it.
- `Refinement.Contents` reads the map that a well-formed store represents.
  Under it, `get`, `set` and `remove` act like the plain map, except that
  `remove` of a missing key is `KeyNotFound` rather than a no-op.
- `EndToEnd.ServeAgrees` lifts this to whole connections. The project-3 server
  over the log engine sends the same responses as over the map whose `remove`
  fails on a missing key (`EndToEnd.MapRemove`), and ends the same way. Over
  project-1's own `remove`, a no-op on a missing key, that request would be
  answered `Ok(())` instead of `Err("key not found")`.
- All three results hold for `get` reading the `len` bytes an index entry
  names (`LogEngine.Get`). The code reads `pos` bytes
  (project-3/src/engine.rs:63; see "## Findings"). With that read, a `get`
  of the first record of any log is answered with a serialization error
  (`Refinement.GetAsWrittenLosesFirstRecord`), and so the server's answer
  differs from the map's (`EndToEnd.AsWrittenScenarioLosesFirstKey`).

Files: `wrappers.dfy`, `codec.dfy`, `errors.dfy`, `kv_map.dfy`,
`log_engine.dfy`, `refinement.dfy`, `replay.dfy`, `protocol.dfy`,
`dispatch.dfy`, `conn_server.dfy`, `pool_server.dfy`, `end_to_end.dfy`.

Two behaviours of the code are modelled as written:
- `get` of an index entry whose record is not a `Set` answers `Ok(None)`
  (project-3/src/engine.rs:65-69). It does not fail with the
  `UnexpectedCommand` error that the error type defines
  (project-4/src/lib.rs:22).
- `remove` adds only the removed entry's length to `uncompacted`
  (project-3/src/engine.rs:81-85). The tombstone's own length is not added.

## Model

| member | source | states |
|---|---|---|
| Codec.DecodeEncode | project-3/src/engine.rs:153-157 | Decoding the exact bytes of an encoded `Command` gives that command back. |
| Codec.DecodeEmpty | project-3/src/engine.rs:63-65 | An empty read decodes to no record, as serde_json's `from_reader` fails on an empty reader. |
| Codec.Encode | project-3/src/engine.rs:153-157 | Every record encodes to at least one byte, so each append moves the writer forward. |
| Errors.Display | project-4/src/lib.rs:15-25 | The texts are "key not found", "serialization failed" and "unexpected command"; an I/O error shows its own message; among the non-I/O kinds, "key not found" identifies `KeyNotFound`. |
| KvMap.New | project-1/src/kv.rs:29-33 | A new store answers `None` for every key. |
| KvMap.Get | project-1/src/kv.rs:42-47 | `get` is `Some` exactly for keys that are present, and then carries the stored value. |
| KvMap.Set | project-1/src/kv.rs:35-40 | After `set(k, v)`, `get(k)` is `Some(v)` and every other key reads as before; the key set gains `k`. |
| KvMap.Remove | project-1/src/kv.rs:49-52 | After `remove(k)`, `get(k)` is `None` and every other key reads as before; removing an absent key changes nothing. |
| KvMap.SetOverwrites | project-1/src/kv.rs:35-39 | A second `set` of a key overwrites the first. |
| LogEngine.FromRange | project-3/src/engine.rs:143-151 | The position made from `(gen, start..end)` starts at `start` and its length reaches exactly to `end`. |
| LogEngine.Append | project-3/src/engine.rs:103-109 | The writer position grows by exactly the bytes written, which land at the end of the current log; every log keeps its old bytes as a prefix. |
| LogEngine.ReadRange | project-3/src/engine.rs:59-63 | Seeking to `start` and taking `n` bytes yields the log's bytes from `start` on, `n` of them, or fewer when end-of-file cuts the read short, and none from at or past the end. |
| LogEngine.Set | project-3/src/engine.rs:35-53 | `set` always succeeds, and the writer advances by exactly the length of the encoded record. The index maps the key to `(current_gen, p, p' - p)`, where `p` and `p'` are the writer positions before and after the append. `uncompacted` grows by the replaced entry's length, or not at all for a fresh key. Other keys' entries and other generations' logs are unchanged. |
| LogEngine.Answer | project-3/src/engine.rs:65-69 | A decoded `Set` gives `Some(value)`, any other record gives `Ok(None)`, and undecodable bytes give a serialization error. |
| LogEngine.Get | project-3/src/engine.rs:55-73 | A key missing from the index answers `Ok(None)`; an indexed key answers from the `len` bytes at its position. |
| LogEngine.GetAsWritten | project-3/src/engine.rs:59-65 | A key missing from the index answers `Ok(None)`, and the answer agrees with `Get` when an entry's position equals its length; what the `pos`-byte read loses is stated by `Refinement.GetAsWrittenLosesFirstRecord`. |
| LogEngine.Remove | project-3/src/engine.rs:74-90 | A missing key gives `KeyNotFound` and nothing changes. A present key gets one `Remove` record appended and only its entry deleted, and `uncompacted` grows by that entry's length, not by the tombstone's. |
| Refinement.Fresh | project-2/src/kv.rs:55-70 | The assumed initial store over generation `gen` satisfies the invariant. With `gen = 1`, its current generation, empty index and zero garbage are what `open` computes for a directory with no logs (kv.rs:70, :56, :59). Its single empty log and writer at offset 0 stand in for `new_log`, whose body is not given. |
| Refinement.Contents | project-3/src/engine.rs:17 | The represented map has exactly the indexed keys. |
| Refinement.CurrentEntriesBelowWriter | project-3/src/engine.rs:38-44 | Under the invariant, an entry in the current generation ends at or before `writer.pos`. |
| Refinement.EntryStable | project-3/src/engine.rs:103-109 | An entry whose log has only been appended to stays valid and carries the same value. |
| Refinement.GetRefines | project-3/src/engine.rs:55-73 | On a well-formed store, `get` answers `Ok` of what the plain map answers. |
| Refinement.SetRefines | project-3/src/engine.rs:35-53 | `set` preserves the invariant and changes the contents as the plain map's `set` does. |
| Refinement.RemoveRefines | project-3/src/engine.rs:74-90 | `remove` preserves the invariant. It succeeds exactly when the key has a value, and fails only with `KeyNotFound`. The contents change as the plain map's `remove` does. |
| Refinement.GetAsWrittenLosesFirstRecord | project-3/src/engine.rs:63 | The as-written `get` of a key whose record sits at offset 0 is a serialization error; on a well-formed store, reading `len` bytes instead gives the key's value. |
| Refinement.FirstSetIsLost | project-3/src/engine.rs:63 | On a fresh store, `set(k, v)` followed by the as-written `get(k)` is a serialization error, while reading `len` bytes gives `Some(v)`. |
| Replay.Loads | project-2/src/kv.rs:61-68 | A successful replay of `n` generations makes exactly `n` `load` calls. |
| Replay.LoadsCall | project-2/src/kv.rs:61-66 | Call `i` of a successful replay replays generation `i` with a fresh reader and the index call `i - 1` left, and that call succeeded. |
| Replay.LoadsThreadIndex | project-2/src/kv.rs:56-66 | Call `i` replays generation `i` of the list with a fresh reader and the index call `i - 1` left (the empty index for the first call), so one index is threaded through every call in list order. |
| Replay.LoadsFailurePersists | project-2/src/kv.rs:66 | Once a `load` fails, replaying further generations ends in that same error. |
| Replay.NextGenIsNewest | project-2/src/kv.rs:58-70 | With the generations listed in ascending order, the new writer generation is at least 1 and greater than every existing generation. |
| Replay.Open | project-2/src/kv.rs:51-81 | `open` fails with the listing's error or the first failing `load`'s error. Otherwise the index is the one the last `load` left, and `uncompacted` is the sum of the garbage the loads reported. The current generation is the last one + 1, or 1 with no logs. There is one reader per listed generation, keyed by its number. With no logs, the index is empty, `uncompacted` is 0 and `current` is 1. |
| Protocol.Flatten | project-3/src/server.rs:53-56 | A result becomes `Ok` exactly when the engine call succeeded, carrying its value; otherwise it becomes `Err` with the error's display text. |
| Dispatch.CleanUpToMeans | project-3/src/server.rs:45-82 | The loop's run is clean up to `n` exactly when each of the first `n` requests decoded and the write of each of their responses succeeded. |
| Dispatch.Serve | project-3/src/server.rs:45-82 | The loop writes at most one response per request, and exactly one per request when it ends cleanly. It ends cleanly exactly when every request decoded and every response was written. |
| Dispatch.ServeFollowsTrace | project-3/src/server.rs:45-82 | On a clean connection the loop writes exactly the responses of any trace of engine steps through the requests, and ends in the trace's last engine state. |
| Dispatch.ServeAppend | project-3/src/server.rs:45-82 | Serving a stream in two parts is serving the first part, then the second from the engine state the first left, with their responses concatenated in order. |
| Dispatch.ServeInOrder | project-3/src/server.rs:45-82 | When the requests before the n-th ran cleanly and the n-th decodes and is written, the n-th response answers the n-th request, computed on the engine state the earlier requests left. |
| Dispatch.ServeStopsAtDecodeError | project-3/src/server.rs:48 | A decode error ends the loop with that error after answering the requests before it; nothing after it is dispatched. |
| Dispatch.ServeStopsAtWriteFailure | project-4/src/server.rs:60-61 | A failed write or flush ends the loop with that error, after the engine ran the request it answered; nothing after it is dispatched. |
| ConnServer.Respond | project-3/src/server.rs:50-81 | Each request kind calls the matching engine operation, keeps the engine's new state, and yields the response of that kind: the value on success, or `Err` with the error's display text. |
| ConnServer.RemoveMissingKeyReply | project-3/src/server.rs:71-77 | A `remove` the engine rejects with `KeyNotFound` is answered `Err("key not found")`. |
| ConnServer.ServeConnection | project-3/src/server.rs:40-85 | `serve` writes at most one response per request, and succeeds exactly when every request decoded and every response was written. |
| ConnServer.OneResponsePerRequest | project-3/src/server.rs:45-96 | On a clean connection there is exactly one response per request, in request order, and engine errors do not end the loop. |
| ConnServer.DecodeErrorEndsConnection | project-3/src/server.rs:48 | A decode error ends `serve` with that error; no later request reaches the engine. |
| ConnServer.RunLoop | project-3/src/server.rs:24-35 | Every incoming connection gets a transcript, and exactly one error line is logged per failed accept or failed `serve`. |
| ConnServer.RunLoopAppend | project-3/src/server.rs:24-35 | Serving two batches of connections is serving the first, then the second from the engine state the first left, so a failed connection does not stop later ones. |
| ConnServer.Run | project-3/src/server.rs:21-38 | A bind failure fails `run`; otherwise every incoming connection is handled and `run` returns `Ok`. |
| PoolServer.Respond | project-4/src/server.rs:68-81 | `Get` yields `Response::Ok(opt)` or `Err(text)`; `Set` and `Remove` yield `Response::Ok(())` or `Err(text)`; the engine's new state is kept. |
| PoolServer.ServeConnection | project-4/src/server.rs:49-85 | `serve` writes at most one reply per request, and succeeds exactly when every request decoded and every reply was written. |
| PoolServer.OneReplyPerRequest | project-4/src/server.rs:57-82 | On a clean connection there is exactly one reply per request, in request order, and a reply is a `Response<Option<String>>` exactly when its request is a get. |
| PoolServer.DecodeErrorAbortsServe | project-4/src/server.rs:65-66 | A decode error aborts `serve`, and later requests are not processed. |
| PoolServer.WriteFailureAbortsServe | project-4/src/server.rs:57-62 | A failed write or flush aborts `serve` after the failing reply's request has run, and later requests are not processed. |
| EndToEnd.StoreGetAsWritten | project-3/src/engine.rs:55-73 | The engine's `get` as written leaves the store unchanged, answers `Ok(None)` for a missing key, and answers a key whose record sits at offset 0 with a serialization error. |
| EndToEnd.AsWrittenLosesFirstKey | project-3/src/engine.rs:63 | Over the engine as written, on a fresh store and a healthy connection, `set k1`, `set k2` with `k2 != k1`, then `get k1` answers the `get` with `Err("serialization failed")`. |
| EndToEnd.AsWrittenScenarioLosesFirstKey | project-3/src/engine.rs:63 | Over the engine as written, the basic scenario's `get a` after `set a=1; set b=2` is answered `Err("serialization failed")` where the map answers `Some("1")`. |
| EndToEnd.StoreGet | project-3/src/engine.rs:55-73 | The engine's `get` on a well-formed store leaves it unchanged and answers what the map answers. |
| EndToEnd.StoreSet | project-3/src/engine.rs:35-53 | The engine's `set` keeps the store well-formed and moves its contents as the map's `set` does. |
| EndToEnd.StoreRemove | project-3/src/engine.rs:74-90 | The engine's `remove` succeeds exactly for keys with a value, fails only with `KeyNotFound`, and moves the contents as the map's `remove` does. |
| EndToEnd.StepAgrees | project-3/src/server.rs:50-81 | For one request, the server's response over the log engine whose `get` reads `len` bytes equals its response over the map, and the contents stay in step. |
| EndToEnd.ServeAgrees | project-3/src/server.rs:40-85 | Over any request stream and link, the server sends the same responses and ends the same way over the log engine whose `get` reads `len` bytes as over the map whose `remove` fails on a missing key (`EndToEnd.MapRemove`); the final contents equal the map's final state. |
| EndToEnd.BasicScenario | project-3/src/server.rs:50-81 | With `get` reading `len` bytes, on a fresh store the requests set a=1, set b=2, get a, remove a, get a, get b, remove missing get these responses in order: `Ok`, `Ok`, `Some("1")`, `Ok`, `None`, `Some("2")`, `Err("key not found")`. |

## Left out

- Compaction and its size threshold: the code has neither, so `uncompacted` is only accumulated.
- `Store::open` in project-3 (engine.rs:23-25) and `new_log` in project-2 (kv.rs:100-106) are `unimplemented!()`. `Refinement.Fresh` is the assumed initial store. Its generation (1 for an empty directory), empty index and zero garbage follow project-2/src/kv.rs:56-70. Its one empty log and writer at offset 0 are an assumption about `new_log`, which the source does not show.
- `sort_generation`, `log_path`, `load` and `new_log` in project-2 have no bodies. The sorted listing is an input and `load` is a function parameter. Creating the writer (`new_log`) and the path are not modelled. The `set`, `get` and `remove` of project-2 have no bodies either.
- serde_json encoding and the streaming `Deserializer` are replaced by the codec in `codec.dfy`. The request stream is given as its sequence of decode results.
- File and socket I/O (`File`, `BufReader`/`BufWriter`, `flush`, `TcpListener`/`TcpStream`): logs are in-memory sequences and flush is the identity. So the engine's own writes never fail.
- Replay.Open: does not model the failures of `fs::create_dir_all` (project-2/src/kv.rs:53), `File::open` (:63), `Reader::new` (:64) or `new_log` (:71). File-system I/O is outside the model, so `open` fails here only with the listing's error or a `load`'s error.
- LogEngine.Set: never returns an I/O error, because appending to an in-memory log cannot fail; the source propagates write and flush errors with `?`.
- LogEngine.Remove: likewise never fails on the write; only the missing-key error is modelled.
- `BufWriterWithPos::seek` and `BufReaderWithPos`'s cursor are not modelled. Every `get` seeks before reading, so the cursor's position after a read is never observed by the modelled code.
- LogEngine.Append: a partial `write` is not modelled; every write takes the whole buffer, as `to_writer`'s `write_all` ensures.
- LogEngine.Get: the `expect` on the reader map (engine.rs:57) panics when an indexed generation has no reader. The model turns that panic into the precondition that every indexed generation has a log.
- All `u64` counters (`pos`, `uncompacted`, generations) are unbounded naturals. Overflow at 2^64 is not modelled.
- The definitions of project-3's `GetResponse`, `SetResponse` and `RemoveResponse` are not part of the source shown. The model gives them the `Ok(payload)` / `Err(message)` shape that the server and client use. Project-3's error type is shown only with `KeyNotFound`. The model uses one error type, project-4's `StoreError`, whose `KeyNotFound` has the same text.
- Logging (`slog`, the `logger` helper): `ConnServer.RunLoop` records the error lines as strings, and nothing else is logged. The per-request thread-id info line is not modelled.
- The thread pool (project-4/src/pool.rs), `Server::run` of project-4 (which spawns one pool task per connection and clones the engine), and all concurrency.
- The `sled` engine, the client, and the command-line binaries, including the engine marker file.
- The listener's stream of connections is modelled as a finite sequence, so `run` returns after the last one.

## Findings

| source | as written | input that shows it | evidently intended | confidence | as-written member | corrected member |
|---|---|---|---|---|---|---|
| project-3/src/engine.rs:63 | `reader.take(cmd.pos)` limits the read to `pos` bytes from offset `pos`. | On a fresh store, `set("a", "1")` then `get("a")`: the record sits at offset 0, so zero bytes are read and decoding fails with a serialization error. | `reader.take(cmd.len)`, which reads exactly the record. | high; not executed | LogEngine.GetAsWritten, Refinement.GetAsWrittenLosesFirstRecord, Refinement.FirstSetIsLost, EndToEnd.AsWrittenLosesFirstKey, EndToEnd.AsWrittenScenarioLosesFirstKey | LogEngine.Get, Refinement.GetRefines |

=== FILE: codec.dfy ===
/** The log record and a byte codec for it.

    The repository serialises `Command` with serde_json, which is not part of
    this model. In its place stands a small self-delimiting codec. The rest of
    the model relies on exactly three facts about it, all proved here: every
    encoding is non-empty, decoding the exact bytes of an encoding gives the
    record back, and no bytes at all decode to nothing, as serde_json's
    `from_reader` fails with an end-of-input error on an empty reader. */
module Codec {
  import opened Wrappers

  type byte = x: int | 0 <= x < 256

  /** `Command` of project-3/src/engine.rs: the record appended to a log. */
  datatype Command = Set(key: string, value: string) | Remove(key: string)

  /** A Unicode scalar value, the set of values a `char` may hold. */
  predicate IsScalar(n: int) {
    0 <= n < 0xD800 || 0xE000 <= n < 0x11_0000
  }

  function EncodeChar(c: char): (bs: seq<byte>)
    ensures |bs| == 3
  {
    var n := c as int;
    [n / 0x1_0000, (n / 0x100) % 0x100, n % 0x100]
  }

  function DecodeChar(b0: byte, b1: byte, b2: byte): Option<char> {
    var n := b0 * 0x1_0000 + b1 * 0x100 + b2;
    if IsScalar(n) then Some(n as char) else None
  }

  lemma DecodeEncodeChar(c: char)
    ensures var bs := EncodeChar(c); DecodeChar(bs[0], bs[1], bs[2]) == Some(c)
  {
    var n := c as int;
    assert n == (n / 0x1_0000) * 0x1_0000 + ((n / 0x100) % 0x100) * 0x100 + n % 0x100;
  }

  /** A string is a run of `1 b0 b1 b2` groups, one per character, closed by `0`. */
  function EncodeString(s: string): (bs: seq<byte>)
    ensures |bs| == 4 * |s| + 1
  {
    if |s| == 0 then [0] else [1] + EncodeChar(s[0]) + EncodeString(s[1..])
  }

  /** Reads one encoded string off the front of `bs`; returns it with the bytes after it. */
  function DecodeString(bs: seq<byte>): (r: Option<(string, seq<byte>)>)
    ensures r.Some? ==> |r.value.1| < |bs|
    decreases |bs|
  {
    if |bs| == 0 then None
    else if bs[0] == 0 then Some(([], bs[1..]))
    else if bs[0] == 1 && |bs| >= 4 then
      match DecodeChar(bs[1], bs[2], bs[3])
      case None => None
      case Some(c) =>
        match DecodeString(bs[4..])
        case None => None
        case Some((t, rest)) => Some(([c] + t, rest))
    else None
  }

  lemma {:induction false} DecodeEncodeString(s: string, rest: seq<byte>)
    ensures DecodeString(EncodeString(s) + rest) == Some((s, rest))
    decreases |s|
  {
    var bs := EncodeString(s) + rest;
    if |s| == 0 {
      assert bs[1..] == rest;
    } else {
      var head := EncodeChar(s[0]);
      assert bs == [1] + head + (EncodeString(s[1..]) + rest);
      DecodeEncodeChar(s[0]);
      assert bs[1] == head[0] && bs[2] == head[1] && bs[3] == head[2];
      assert bs[4..] == EncodeString(s[1..]) + rest;
      DecodeEncodeString(s[1..], rest);
      assert [s[0]] + s[1..] == s;
    }
  }

  /** Tag byte 0 for `Set`, 1 for `Remove`, then the strings in field order. */
  function Encode(c: Command): (bs: seq<byte>)
    ensures |bs| > 0
  {
    match c
    case Set(k, v) => [0] + EncodeString(k) + EncodeString(v)
    case Remove(k) => [1] + EncodeString(k)
  }

  /** Decodes `bs` as exactly one record; trailing bytes are an error, as
      trailing non-whitespace is for serde_json's `from_reader`. This codec
      never emits whitespace, so the difference is never observed. */
  function Decode(bs: seq<byte>): Option<Command> {
    if |bs| == 0 then None
    else
      match DecodeString(bs[1..])
      case None => None
      case Some((k, rest)) =>
        if bs[0] == 0 then
          match DecodeString(rest)
          case None => None
          case Some((v, rest')) => if |rest'| == 0 then Some(Set(k, v)) else None
        else if bs[0] == 1 && |rest| == 0 then Some(Remove(k))
        else None
  }

  /** An empty read decodes to no record. */
  lemma DecodeEmpty()
    ensures Decode([]) == None
  {
  }

  /** Round trip: the exact bytes of a record decode to that record. */
  lemma DecodeEncode(c: Command)
    ensures Decode(Encode(c)) == Some(c)
  {
    var bs := Encode(c);
    match c
    case Set(k, v) =>
      assert bs[1..] == EncodeString(k) + EncodeString(v);
      DecodeEncodeString(k, EncodeString(v));
      assert EncodeString(v) == EncodeString(v) + [];
      DecodeEncodeString(v, []);
    case Remove(k) =>
      assert bs[1..] == EncodeString(k) + [];
      DecodeEncodeString(k, []);
  }
}

=== FILE: conn_server.dfy ===
/** The single-threaded server of project-3/src/server.rs: `serve` answers the
    requests of one connection, `run` serves the accepted connections one
    after another, logging the failure of any of them and carrying on. */
module ConnServer {
  import opened Wrappers
  import opened Errors
  import opened Protocol
  import opened Dispatch

  /** One response as written on the stream: each request kind has its own
      response type. */
  datatype Sent = GetSent(getResp: GetResponse) | SetSent(setResp: SetResponse) | RemoveSent(removeResp: RemoveResponse)

  /** The `match request` arm of `serve` (server.rs:50-82): run the engine
      call the request names and wrap its result, errors flattened to text,
      in the response type of that request kind. */
  function Respond<S>(engine: Engine<S>, st: S, req: Request): (r: (S, Sent))
    ensures req.Get? ==> r.1.GetSent? && r.0 == engine.getKey(st, req.key).0
    ensures req.Get? ==> r.1.getResp == Flatten(engine.getKey(st, req.key).1)
    ensures req.Set? ==> r.1.SetSent? && r.0 == engine.setKey(st, req.key, req.value).0
    ensures req.Set? ==> r.1.setResp == Flatten(engine.setKey(st, req.key, req.value).1)
    ensures req.Remove? ==> r.1.RemoveSent? && r.0 == engine.removeKey(st, req.key).0
    ensures req.Remove? ==> r.1.removeResp == Flatten(engine.removeKey(st, req.key).1)
  {
    match req
    case Get(key) =>
      var (st', result) := engine.getKey(st, key);
      (st', GetSent(match result case Success(value) => Ok(value) case Failure(err) => Err(Display(err))))
    case Set(key, value) =>
      var (st', result) := engine.setKey(st, key, value);
      (st', SetSent(match result case Success(u) => assert u == (); Ok(()) case Failure(err) => Err(Display(err))))
    case Remove(key) =>
      var (st', result) := engine.removeKey(st, key);
      (st', RemoveSent(match result case Success(u) => assert u == (); Ok(()) case Failure(err) => Err(Display(err))))
  }

  /** A `remove` the engine rejects with `KeyNotFound` is answered with
      `Err("key not found")` (server.rs:71-77), and the loop goes on. */
  lemma RemoveMissingKeyReply<S>(engine: Engine<S>, st: S, key: string)
    requires engine.removeKey(st, key).1 == Failure(KeyNotFound)
    ensures Respond(engine, st, Request.Remove(key)).1 == RemoveSent(Err("key not found"))
  {
  }

  /** `Server::serve` for a connection whose request stream decodes to `reqs`. */
  function ServeConnection<S>(engine: Engine<S>, st: S, reqs: seq<Result<Request, Error>>, link: Link): (r: Served<S, Sent>)
    ensures |r.sent| <= |reqs|
    ensures r.outcome.Success? <==> CleanUpTo(reqs, link, 0, |reqs|)
  {
    Serve((s, req) => Respond(engine, s, req), st, reqs, link, 0)
  }

  /** Exactly one response per decoded request, in request order, on a
      connection that decodes and writes cleanly; an engine error is
      answered with an `Err` response and the loop goes on. */
  lemma OneResponsePerRequest<S>(engine: Engine<S>, st: S, reqs: seq<Result<Request, Error>>, link: Link)
    requires forall i :: 0 <= i < |reqs| ==> reqs[i].Success? && link(i).None?
    ensures var r := ServeConnection(engine, st, reqs, link);
      && r.outcome.Success?
      && |r.sent| == |reqs|
      && forall n :: 0 <= n < |reqs| ==>
           r.sent[n] == Respond(engine, ServeConnection(engine, st, reqs[..n], link).state, reqs[n].value).1
  {
    var respond := (s, req) => Respond(engine, s, req);
    forall i | 0 <= i < |reqs| ensures CleanAt(reqs, link, 0, i) {
      assert 0 + i == i;
    }
    CleanUpToMeans(reqs, link, 0, |reqs|);
    forall n | 0 <= n < |reqs|
      ensures ServeConnection(engine, st, reqs, link).sent[n]
           == Respond(engine, ServeConnection(engine, st, reqs[..n], link).state, reqs[n].value).1
    {
      CleanUpToMeans(reqs, link, 0, n);
      assert 0 + n == n;
      ServeInOrder(respond, st, reqs, link, 0, n);
    }
  }

  /** A request that fails to decode ends `serve` with the decode error
      (server.rs:48); no request after it reaches the engine. */
  lemma DecodeErrorEndsConnection<S>(engine: Engine<S>, st: S, reqs: seq<Result<Request, Error>>, link: Link, n: nat)
    requires n < |reqs| && reqs[n].Failure? && CleanUpTo(reqs, link, 0, n)
    ensures var before := ServeConnection(engine, st, reqs[..n], link);
      ServeConnection(engine, st, reqs, link) == Served(before.state, before.sent, Failure(reqs[n].error))
  {
    ServeStopsAtDecodeError((s, req) => Respond(engine, s, req), st, reqs, link, 0, n);
  }

  /** An accepted connection: what its request stream decodes to and how
      writing to it goes. */
  datatype Connection = Connection(requests: seq<Result<Request, Error>>, link: Link)

  /** The engine state after `run`, the responses written on each incoming
      connection (none for a failed accept), and the error lines logged. */
  datatype Ran<S> = Ran(state: S, transcripts: seq<seq<Sent>>, log: seq<string>)

  /** The number of incoming connections that fail, either at accept or in `serve`. */
  function Failures<S>(engine: Engine<S>, st: S, incoming: seq<Result<Connection, Error>>): nat
    decreases |incoming|
  {
    if |incoming| == 0 then 0
    else
      match incoming[0]
      case Failure(_) => 1 + Failures(engine, st, incoming[1..])
      case Success(c) =>
        var served := ServeConnection(engine, st, c.requests, c.link);
        (if served.outcome.Failure? then 1 else 0) + Failures(engine, served.state, incoming[1..])
  }

  /** The accept loop of `Server::run` (server.rs:24-37) over the incoming
      connections: each accepted one is served to its end, a failed accept or
      a failed `serve` is logged, and the loop moves on to the next. */
  function RunLoop<S>(engine: Engine<S>, st: S, incoming: seq<Result<Connection, Error>>): (r: Ran<S>)
    ensures |r.transcripts| == |incoming|
    ensures |r.log| == Failures(engine, st, incoming)
    decreases |incoming|
  {
    if |incoming| == 0 then Ran(st, [], [])
    else
      match incoming[0]
      case Failure(err) =>
        var rest := RunLoop(engine, st, incoming[1..]);
        Ran(rest.state, [[]] + rest.transcripts, ["connection failed: " + Display(err)] + rest.log)
      case Success(c) =>
        var served := ServeConnection(engine, st, c.requests, c.link);
        var line := if served.outcome.Failure? then ["serving failed: " + Display(served.outcome.error)] else [];
        var rest := RunLoop(engine, served.state, incoming[1..]);
        Ran(rest.state, [served.sent] + rest.transcripts, line + rest.log)
  }

  /** Isolation: a connection's failure does not stop the ones after it.
      Running over two batches of connections is running the first, then
      the second from the engine state the first left, with the transcripts
      and log lines of both in order. */
  lemma {:induction false} RunLoopAppend<S>(engine: Engine<S>, st: S,
                                            a: seq<Result<Connection, Error>>, b: seq<Result<Connection, Error>>)
    ensures var first := RunLoop(engine, st, a);
      var second := RunLoop(engine, first.state, b);
      RunLoop(engine, st, a + b) == Ran(second.state, first.transcripts + second.transcripts, first.log + second.log)
    decreases |a|
  {
    if |a| == 0 {
      assert a + b == b;
    } else {
      assert (a + b)[0] == a[0];
      assert (a + b)[1..] == a[1..] + b;
      match a[0]
      case Failure(err) =>
        RunLoopAppend(engine, st, a[1..], b);
        var tail := RunLoop(engine, st, a[1..]);
        var second := RunLoop(engine, tail.state, b);
        assert [[]] + (tail.transcripts + second.transcripts) == ([[]] + tail.transcripts) + second.transcripts;
        assert ["connection failed: " + Display(err)] + (tail.log + second.log)
          == (["connection failed: " + Display(err)] + tail.log) + second.log;
      case Success(c) =>
        var served := ServeConnection(engine, st, c.requests, c.link);
        var line := if served.outcome.Failure? then ["serving failed: " + Display(served.outcome.error)] else [];
        RunLoopAppend(engine, served.state, a[1..], b);
        var tail := RunLoop(engine, served.state, a[1..]);
        var second := RunLoop(engine, tail.state, b);
        assert [served.sent] + (tail.transcripts + second.transcripts) == ([served.sent] + tail.transcripts) + second.transcripts;
        assert line + (tail.log + second.log) == (line + tail.log) + second.log;
    }
  }

  /** `Server::run`: a listener that cannot bind fails `run`; otherwise
      every incoming connection is handled by the accept loop and `run`
      returns `Ok` when the listener's stream of connections ends. */
  function Run<S>(engine: Engine<S>, st: S, listener: Result<seq<Result<Connection, Error>>, Error>): (r: (Ran<S>, Result<(), Error>))
    ensures listener.Failure? ==> r == (Ran(st, [], []), Failure(listener.error))
    ensures listener.Success? ==> r.1.Success? && |r.0.transcripts| == |listener.value|
  {
    match listener
    case Failure(err) => (Ran(st, [], []), Failure(err))
    case Success(incoming) => (RunLoop(engine, st, incoming), Success(()))
  }
}

=== FILE: dispatch.dfy ===
/** The per-connection request loop shared by both servers
    (`Server::serve` in project-3/src/server.rs, `serve` in
    project-4/src/server.rs).

    The decoded request stream is a sequence whose elements are a request or
    the decode error that ended the stream. Each request is answered by a
    server-specific `respond` step; the response is then written and
    flushed, and a failure to do so ends the loop. `link(n)` says whether
    writing the `n`-th response of the connection fails, and with what
    error. */
module Dispatch {
  import opened Wrappers
  import opened Errors
  import opened Protocol

  type Link = nat -> Option<Error>

  /** The engine state after the loop, the responses written, in order, and
      how the loop ended. */
  datatype Served<S, R> = Served(state: S, sent: seq<R>, outcome: Result<(), Error>)

  /** The first `n` requests all decoded and their responses were all
      written, `written` responses having gone out on the connection before
      them. */
  predicate CleanUpTo(reqs: seq<Result<Request, Error>>, link: Link, written: nat, n: nat)
    requires n <= |reqs|
    decreases n
  {
    n == 0 || (reqs[0].Success? && link(written).None? && CleanUpTo(reqs[1..], link, written + 1, n - 1))
  }

  /** The `i`-th request decoded and the write of its response, the
      `written + i`-th on the connection, succeeded. */
  predicate CleanAt(reqs: seq<Result<Request, Error>>, link: Link, written: nat, i: nat)
    requires i < |reqs|
  {
    reqs[i].Success? && link(written + i).None?
  }

  /** Dropping the first request shifts every later one down by one place
      and up by one write. */
  lemma CleanAtShift(reqs: seq<Result<Request, Error>>, link: Link, written: nat, i: nat)
    requires i + 1 < |reqs|
    ensures CleanAt(reqs[1..], link, written + 1, i) == CleanAt(reqs, link, written, i + 1)
  {
    assert reqs[1..][i] == reqs[i + 1];
    assert written + 1 + i == written + (i + 1);
  }

  /** A stream whose first `n` requests are each clean is clean up to `n`. */
  lemma {:induction false} AllCleanUpTo(reqs: seq<Result<Request, Error>>, link: Link, written: nat, n: nat)
    requires n <= |reqs|
    requires forall i :: 0 <= i < n ==> CleanAt(reqs, link, written, i)
    ensures CleanUpTo(reqs, link, written, n)
    decreases n
  {
    if n > 0 {
      var tail, next := reqs[1..], written + 1;
      forall i | 0 <= i < n - 1 ensures CleanAt(tail, link, next, i) {
        CleanAtShift(reqs, link, written, i);
      }
      AllCleanUpTo(tail, link, next, n - 1);
      assert CleanAt(reqs, link, written, 0);
    }
  }

  /** A stream clean up to `n` has each of its first `n` requests clean. */
  lemma {:induction false} CleanUpToAll(reqs: seq<Result<Request, Error>>, link: Link, written: nat, n: nat)
    requires n <= |reqs| && CleanUpTo(reqs, link, written, n)
    ensures forall i :: 0 <= i < n ==> CleanAt(reqs, link, written, i)
    decreases n
  {
    if n > 0 {
      CleanUpToAll(reqs[1..], link, written + 1, n - 1);
      forall i | 0 <= i < n ensures CleanAt(reqs, link, written, i) {
        if i > 0 {
          assert CleanAt(reqs[1..], link, written + 1, i - 1);
          CleanAtShift(reqs, link, written, i - 1);
        }
      }
    }
  }

  /** `CleanUpTo` says, element by element, that each of the first `n`
      requests decoded and the write of its response succeeded. */
  lemma CleanUpToMeans(reqs: seq<Result<Request, Error>>, link: Link, written: nat, n: nat)
    requires n <= |reqs|
    ensures CleanUpTo(reqs, link, written, n) <==> forall i :: 0 <= i < n ==> CleanAt(reqs, link, written, i)
  {
    if forall i :: 0 <= i < n ==> CleanAt(reqs, link, written, i) {
      AllCleanUpTo(reqs, link, written, n);
    }
    if CleanUpTo(reqs, link, written, n) {
      CleanUpToAll(reqs, link, written, n);
    }
  }

  /** The loop, with `written` responses already written on this connection. */
  function Serve<S, R>(respond: (S, Request) -> (S, R), st: S, reqs: seq<Result<Request, Error>>,
                       link: Link, written: nat): (r: Served<S, R>)
    ensures |r.sent| <= |reqs|
    ensures r.outcome.Success? <==> CleanUpTo(reqs, link, written, |reqs|)
    ensures r.outcome.Success? ==> |r.sent| == |reqs|
    decreases |reqs|
  {
    if |reqs| == 0 then Served(st, [], Success(()))
    else
      match reqs[0]
      case Failure(e) => Served(st, [], Failure(e))
      case Success(req) =>
        var (st', resp) := respond(st, req);
        match link(written)
        case Some(e) => Served(st', [], Failure(e))
        case None =>
          var rest := Serve(respond, st', reqs[1..], link, written + 1);
          Served(rest.state, [resp] + rest.sent, rest.outcome)
  }

  /** One turn of the loop: a decoded request whose response is written
      leaves the rest of the stream to the next turn. */
  lemma ServeStep<S, R>(respond: (S, Request) -> (S, R), st: S, reqs: seq<Result<Request, Error>>,
                        link: Link, written: nat)
    requires |reqs| > 0 && reqs[0].Success? && link(written).None?
    ensures var next := respond(st, reqs[0].value);
      var rest := Serve(respond, next.0, reqs[1..], link, written + 1);
      Serve(respond, st, reqs, link, written) == Served(rest.state, [next.1] + rest.sent, rest.outcome)
  {
  }

  /** On a clean connection the loop follows any trace of `respond`: given
      the engine states the requests pass through and the responses each
      step yields, it writes exactly those responses and ends in the last
      state. */
  lemma {:induction false} ServeFollowsTrace<S, R>(respond: (S, Request) -> (S, R), states: seq<S>,
                                                   reqs: seq<Result<Request, Error>>, outs: seq<R>,
                                                   link: Link, written: nat)
    requires |states| == |reqs| + 1 && |outs| == |reqs|
    requires forall i :: 0 <= i < |reqs| ==>
      reqs[i].Success? && respond(states[i], reqs[i].value) == (states[i + 1], outs[i])
    requires CleanUpTo(reqs, link, written, |reqs|)
    ensures Serve(respond, states[0], reqs, link, written) == Served(states[|reqs|], outs, Success(()))
    decreases |reqs|
  {
    if |reqs| > 0 {
      ServeStep(respond, states[0], reqs, link, written);
      var states', reqs', outs' := states[1..], reqs[1..], outs[1..];
      forall i | 0 <= i < |reqs'|
        ensures reqs'[i].Success? && respond(states'[i], reqs'[i].value) == (states'[i + 1], outs'[i])
      {
        assert reqs'[i] == reqs[i + 1] && states'[i] == states[i + 1] && states'[i + 1] == states[i + 2];
      }
      ServeFollowsTrace(respond, states', reqs', outs', link, written + 1);
      assert outs == [outs[0]] + outs';
    }
  }

  /** Prepending one response commutes with appending the rest. */
  lemma ConsAssoc<R>(x: R, t: seq<R>, u: seq<R>)
    ensures [x] + (t + u) == ([x] + t) + u
  {
  }

  /** A loop that ends cleanly decoded and wrote its first request, and ended
      cleanly on the rest. */
  lemma ServeSuccessHead<S, R>(respond: (S, Request) -> (S, R), st: S, reqs: seq<Result<Request, Error>>,
                               link: Link, written: nat)
    requires |reqs| > 0 && Serve(respond, st, reqs, link, written).outcome.Success?
    ensures reqs[0].Success? && link(written).None?
    ensures Serve(respond, respond(st, reqs[0].value).0, reqs[1..], link, written + 1).outcome.Success?
  {
  }

  /** The first turn over `a + b` is the first turn over `a`, with the rest
      of `a` followed by `b` left to the next turn. */
  lemma ServeConsStep<S, R>(respond: (S, Request) -> (S, R), st: S,
                            a: seq<Result<Request, Error>>, b: seq<Result<Request, Error>>,
                            link: Link, written: nat)
    requires |a| > 0 && a[0].Success? && link(written).None?
    ensures var next := respond(st, a[0].value);
      var rest := Serve(respond, next.0, a[1..] + b, link, written + 1);
      Serve(respond, st, a + b, link, written) == Served(rest.state, [next.1] + rest.sent, rest.outcome)
  {
    assert (a + b)[0] == a[0];
    assert (a + b)[1..] == a[1..] + b;
    ServeStep(respond, st, a + b, link, written);
  }

  /** Serving a stream in two parts: a first part that ends cleanly hands its
      engine state and write count to the second, and the responses are the
      two parts' responses in order. */
  lemma {:induction false} ServeAppend<S, R>(respond: (S, Request) -> (S, R), st: S,
                                             a: seq<Result<Request, Error>>, b: seq<Result<Request, Error>>,
                                             link: Link, written: nat)
    requires Serve(respond, st, a, link, written).outcome.Success?
    ensures var first := Serve(respond, st, a, link, written);
      var second := Serve(respond, first.state, b, link, written + |a|);
      Serve(respond, st, a + b, link, written) == Served(second.state, first.sent + second.sent, second.outcome)
    decreases |a|
  {
    if |a| == 0 {
      assert a + b == b;
    } else {
      ServeSuccessHead(respond, st, a, link, written);
      var next := respond(st, a[0].value);
      ServeStep(respond, st, a, link, written);
      ServeConsStep(respond, st, a, b, link, written);
      ServeAppend(respond, next.0, a[1..], b, link, written + 1);
      var tail := Serve(respond, next.0, a[1..], link, written + 1);
      var second := Serve(respond, tail.state, b, link, written + |a|);
      ConsAssoc(next.1, tail.sent, second.sent);
    }
  }

  /** A stream clean up to `n` has a prefix of length `n` that is clean throughout. */
  lemma {:induction false} CleanUpToPrefix(reqs: seq<Result<Request, Error>>, link: Link, written: nat, n: nat)
    requires n <= |reqs| && CleanUpTo(reqs, link, written, n)
    ensures CleanUpTo(reqs[..n], link, written, n)
    decreases n
  {
    if n > 0 {
      CleanUpToPrefix(reqs[1..], link, written + 1, n - 1);
      assert reqs[..n][1..] == reqs[1..][..n - 1];
    }
  }

  /** A stream that decodes and writes cleanly up to its `n`-th element, and
      whose `n`-th request decodes and is answered: the `n`-th response
      answers the `n`-th request, computed from the engine state the requests
      before it left. */
  lemma ServeInOrder<S, R>(respond: (S, Request) -> (S, R), st: S,
                           reqs: seq<Result<Request, Error>>, link: Link, written: nat, n: nat)
    requires n < |reqs| && CleanUpTo(reqs, link, written, n) && reqs[n].Success? && link(written + n).None?
    ensures var before := Serve(respond, st, reqs[..n], link, written).state;
      && |Serve(respond, st, reqs, link, written).sent| > n
      && Serve(respond, st, reqs, link, written).sent[n] == respond(before, reqs[n].value).1
  {
    CleanUpToPrefix(reqs, link, written, n);
    assert reqs == reqs[..n] + reqs[n..];
    ServeAppend(respond, st, reqs[..n], reqs[n..], link, written);
    assert reqs[n..][0] == reqs[n];
  }

  /** A decode error ends the loop with that error: the requests before it
      are answered and nothing after it is dispatched, whatever follows. */
  lemma ServeStopsAtDecodeError<S, R>(respond: (S, Request) -> (S, R), st: S,
                                      reqs: seq<Result<Request, Error>>, link: Link, written: nat, n: nat)
    requires n < |reqs| && reqs[n].Failure? && CleanUpTo(reqs, link, written, n)
    ensures var before := Serve(respond, st, reqs[..n], link, written);
      Serve(respond, st, reqs, link, written) == Served(before.state, before.sent, Failure(reqs[n].error))
  {
    CleanUpToPrefix(reqs, link, written, n);
    assert reqs == reqs[..n] + reqs[n..];
    ServeAppend(respond, st, reqs[..n], reqs[n..], link, written);
    assert reqs[n..][0] == reqs[n];
  }

  /** A failed write or flush ends the loop with that error, after the
      request it answered has run on the engine; nothing after it is
      dispatched, whatever follows. */
  lemma ServeStopsAtWriteFailure<S, R>(respond: (S, Request) -> (S, R), st: S,
                                       reqs: seq<Result<Request, Error>>, link: Link, written: nat, n: nat)
    requires n < |reqs| && reqs[n].Success? && link(written + n).Some? && CleanUpTo(reqs, link, written, n)
    ensures var before := Serve(respond, st, reqs[..n], link, written);
      Serve(respond, st, reqs, link, written)
        == Served(respond(before.state, reqs[n].value).0, before.sent, Failure(link(written + n).value))
  {
    CleanUpToPrefix(reqs, link, written, n);
    assert reqs == reqs[..n] + reqs[n..];
    ServeAppend(respond, st, reqs[..n], reqs[n..], link, written);
    assert reqs[n..][0] == reqs[n];
  }
}

=== FILE: end_to_end.dfy ===
/** The project-3 server (project-3/src/server.rs) running the log engine
    (project-3/src/engine.rs), compared with the same server running the
    plain map of project-1/src/kv.rs.

    The engine here answers `get` from the `len` bytes an index entry names,
    the corrected read of `LogEngine.Get`. Over a well-formed store, every
    request stream then gets the same responses, ends the same way and
    leaves the same contents as it would over the map, once the map's
    `remove` fails on a missing key with `KeyNotFound` as the engine does.

    The read as written (engine.rs:63) takes `pos` bytes instead, and the
    server over that engine answers a `get` of the first record of a log
    with `Err("serialization failed")`; `AsWrittenScenarioLosesFirstKey`
    shows this on the basic scenario. */
module EndToEnd {
  import opened Wrappers
  import opened Errors
  import opened Protocol
  import opened Dispatch
  import LogEngine
  import opened Refinement
  import ConnServer
  import KvMap

  /** Stores that satisfy the engine's invariant. */
  type WfStore = s: LogEngine.Store | Wf(s) witness Fresh(1)

  function StoreGet(s: WfStore, key: string): (r: (WfStore, Result<Option<string>, Error>))
    ensures r.0 == s
    ensures r.1 == Success(KvMap.Get(Contents(s), key))
  {
    GetRefines(s, key);
    (s, LogEngine.Get(s, key))
  }

  function StoreSet(s: WfStore, key: string, value: string): (r: (WfStore, Result<(), Error>))
    ensures r.1.Success?
    ensures Contents(r.0) == KvMap.Set(Contents(s), key, value)
  {
    var out := LogEngine.Set(s, key, value);
    SetRefines(s, key, value);
    var r: WfStore := out.store;
    (r, out.result)
  }

  function StoreRemove(s: WfStore, key: string): (r: (WfStore, Result<(), Error>))
    ensures r.1.Success? <==> KvMap.Get(Contents(s), key).Some?
    ensures r.1.Failure? ==> r.1.error == KeyNotFound
    ensures Contents(r.0) == KvMap.Remove(Contents(s), key)
  {
    var out := LogEngine.Remove(s, key);
    RemoveRefines(s, key);
    var r: WfStore := out.store;
    (r, out.result)
  }

  function StoreEngine(): Engine<WfStore> {
    Engine(StoreGet, StoreSet, StoreRemove)
  }

  function MapGet(m: KvMap.KvStore, key: string): (KvMap.KvStore, Result<Option<string>, Error>) {
    (m, Success(KvMap.Get(m, key)))
  }

  function MapSet(m: KvMap.KvStore, key: string, value: string): (KvMap.KvStore, Result<(), Error>) {
    (KvMap.Set(m, key, value), Success(()))
  }

  /** The map's `remove`, but failing on a missing key as the engine does. */
  function MapRemove(m: KvMap.KvStore, key: string): (KvMap.KvStore, Result<(), Error>) {
    if KvMap.Get(m, key).Some? then (KvMap.Remove(m, key), Success(())) else (m, Failure(KeyNotFound))
  }

  function MapEngine(): Engine<KvMap.KvStore> {
    Engine(MapGet, MapSet, MapRemove)
  }

  function StoreStep(s: WfStore, req: Request): (WfStore, ConnServer.Sent) {
    ConnServer.Respond(StoreEngine(), s, req)
  }

  function MapStep(m: KvMap.KvStore, req: Request): (KvMap.KvStore, ConnServer.Sent) {
    ConnServer.Respond(MapEngine(), m, req)
  }

  /** One request: the same response, and contents that move as the map does. */
  lemma StepAgrees(s: WfStore, req: Request)
    ensures StoreStep(s, req).1 == MapStep(Contents(s), req).1
    ensures Contents(StoreStep(s, req).0) == MapStep(Contents(s), req).0
  {
    var m := Contents(s);
    match req
    case Get(key) =>
    case Set(key, value) =>
      var r := StoreSet(s, key, value);
      assert r.1 == Success(());
    case Remove(key) =>
      var r := StoreRemove(s, key);
      if KvMap.Get(m, key).Some? {
        assert r.1 == Success(());
      } else {
        assert KvMap.Remove(m, key) == m;
      }
  }

  /** A whole connection: the log engine and the map give the same
      responses and the same ending, and the store's final contents are the
      map's final state. */
  lemma {:induction false} ServeAgrees(s: WfStore, reqs: seq<Result<Request, Error>>, link: Link, written: nat)
    ensures var byStore := Serve(StoreStep, s, reqs, link, written);
      var byMap := Serve(MapStep, Contents(s), reqs, link, written);
      && byStore.sent == byMap.sent
      && byStore.outcome == byMap.outcome
      && Contents(byStore.state) == byMap.state
    decreases |reqs|
  {
    if |reqs| > 0 && reqs[0].Success? {
      var req := reqs[0].value;
      StepAgrees(s, req);
      if link(written).None? {
        ServeStep(StoreStep, s, reqs, link, written);
        ServeStep(MapStep, Contents(s), reqs, link, written);
        ServeAgrees(StoreStep(s, req).0, reqs[1..], link, written + 1);
      }
    }
  }

  /** The requests of the basic scenario: set a=1, set b=2, get a, remove a,
      get a, get b, and remove a key never set. */
  function ScenarioRequests(): seq<Result<Request, Error>> {
    [Success(Request.Set("a", "1")), Success(Request.Set("b", "2")), Success(Request.Get("a")),
     Success(Request.Remove("a")), Success(Request.Get("a")), Success(Request.Get("b")),
     Success(Request.Remove("missing"))]
  }

  /** The responses the basic scenario should get. */
  function ScenarioResponses(): seq<ConnServer.Sent> {
    [ConnServer.SetSent(Ok(())), ConnServer.SetSent(Ok(())), ConnServer.GetSent(Ok(Some("1"))),
     ConnServer.RemoveSent(Ok(())), ConnServer.GetSent(Ok(None)), ConnServer.GetSent(Ok(Some("2"))),
     ConnServer.RemoveSent(Err("key not found"))]
  }

  /** The map states the basic scenario passes through, from the empty map. */
  function ScenarioMaps(): seq<KvMap.KvStore> {
    var m0 := KvMap.New();
    var m1 := KvMap.Set(m0, "a", "1");
    var m2 := KvMap.Set(m1, "b", "2");
    var m3 := KvMap.Remove(m2, "a");
    [m0, m1, m2, m2, m3, m3, m3, m3]
  }

  lemma ScenarioMapSteps(i: nat)
    requires i < 7
    ensures ScenarioRequests()[i].Success?
    ensures MapStep(ScenarioMaps()[i], ScenarioRequests()[i].value) == (ScenarioMaps()[i + 1], ScenarioResponses()[i])
  {
    var ms := ScenarioMaps();
    assert KvMap.Get(ms[2], "a") == Some("1");
    assert KvMap.Get(ms[4], "a") == None;
    assert KvMap.Get(ms[4], "b") == Some("2");
    assert KvMap.Get(ms[4], "missing") == None;
  }

  /** A connection whose every write and flush succeeds. */
  function Healthy(n: nat): Option<Error> {
    None
  }

  /** The basic scenario on a fresh store over a healthy connection: the
      reads see the latest write or nothing, and removing the key never set
      is answered with `Err("key not found")` while the connection goes on. */
  lemma BasicScenario(s: WfStore)
    requires s == Fresh(1)
    ensures Serve(StoreStep, s, ScenarioRequests(), Healthy, 0).sent == ScenarioResponses()
  {
    var reqs, outs, ms := ScenarioRequests(), ScenarioResponses(), ScenarioMaps();
    ServeAgrees(s, reqs, Healthy, 0);
    assert Contents(s) == ms[0];
    forall i | 0 <= i < |reqs|
      ensures reqs[i].Success? && MapStep(ms[i], reqs[i].value) == (ms[i + 1], outs[i])
    {
      ScenarioMapSteps(i);
    }
    forall i | 0 <= i < |reqs| ensures CleanAt(reqs, Healthy, 0, i) {
      ScenarioMapSteps(i);
    }
    AllCleanUpTo(reqs, Healthy, 0, |reqs|);
    ServeFollowsTrace(MapStep, ms, reqs, outs, Healthy, 0);
  }

  /** The engine's `get` as written (engine.rs:63), reading `pos` bytes: it
      leaves the store unchanged, and a key whose record sits at offset 0 is
      answered with a serialization error. */
  function StoreGetAsWritten(s: WfStore, key: string): (r: (WfStore, Result<Option<string>, Error>))
    ensures r.0 == s
    ensures key in s.index && s.index[key].pos == 0 ==> r.1 == Failure(Serde)
    ensures key !in s.index ==> r.1 == Success(None)
  {
    if key in s.index then
      assert EntryValid(s, key);
      if s.index[key].pos == 0 then GetAsWrittenLosesFirstRecord(s, key); (s, LogEngine.GetAsWritten(s, key))
      else (s, LogEngine.GetAsWritten(s, key))
    else (s, LogEngine.GetAsWritten(s, key))
  }

  function AsWrittenStep(s: WfStore, req: Request): (WfStore, ConnServer.Sent) {
    ConnServer.Respond(Engine(StoreGetAsWritten, StoreSet, StoreRemove), s, req)
  }

  // The lemmas below take the fresh store as a `WfStore` parameter pinned to
  // `Fresh(gen)`, so that the server's steps, which take a `WfStore`, apply to
  // it without a conversion in every ensures.

  /** After two `set`s of different keys on a fresh store, the record of
      the first key is the first of the log. */
  lemma FirstKeyAtOffsetZero(s0: WfStore, gen: LogEngine.Gen, k1: string, v1: string, k2: string, v2: string)
    requires s0 == Fresh(gen) && k1 != k2
    ensures var s2 := StoreSet(StoreSet(s0, k1, v1).0, k2, v2).0;
      k1 in s2.index && s2.index[k1].pos == 0
  {
    var s1 := StoreSet(s0, k1, v1).0;
    assert k1 in s1.index && s1.index[k1].pos == 0;
    var s2 := StoreSet(s1, k2, v2).0;
    assert s2.index[k1] == s1.index[k1];
  }

  /** Serving two `set` requests runs both on the engine. */
  lemma TwoSetsAsWritten(s0: WfStore, reqs: seq<Result<Request, Error>>, k1: string, v1: string, k2: string, v2: string)
    requires |reqs| >= 2 && reqs[0] == Success(Request.Set(k1, v1)) && reqs[1] == Success(Request.Set(k2, v2))
    ensures Serve(AsWrittenStep, s0, reqs[..2], Healthy, 0).state == StoreSet(StoreSet(s0, k1, v1).0, k2, v2).0
    ensures CleanUpTo(reqs, Healthy, 0, 2)
  {
    var pre := reqs[..2];
    assert pre[1..] == [reqs[1]];
    var s1 := AsWrittenStep(s0, Request.Set(k1, v1)).0;
    ServeStep(AsWrittenStep, s0, pre, Healthy, 0);
    ServeStep(AsWrittenStep, s1, pre[1..], Healthy, 1);
    assert CleanUpTo(reqs[2..], Healthy, 2, 0);
  }

  /** After two `set`s of different keys on a fresh store, the engine state
      the loop leaves holds the first key's record at offset 0. */
  lemma TwoSetsLeaveFirstAtZero(s0: WfStore, gen: LogEngine.Gen, reqs: seq<Result<Request, Error>>,
                                k1: string, v1: string, k2: string, v2: string)
    requires s0 == Fresh(gen) && k1 != k2
    requires |reqs| >= 2 && reqs[0] == Success(Request.Set(k1, v1)) && reqs[1] == Success(Request.Set(k2, v2))
    ensures var before := Serve(AsWrittenStep, s0, reqs[..2], Healthy, 0).state;
      k1 in before.index && before.index[k1].pos == 0
    ensures CleanUpTo(reqs, Healthy, 0, 2)
  {
    TwoSetsAsWritten(s0, reqs, k1, v1, k2, v2);
    FirstKeyAtOffsetZero(s0, gen, k1, v1, k2, v2);
  }

  /** Over the engine as written, a `get` of a key whose record is the first
      of its log is answered with `Err("serialization failed")`. */
  lemma AsWrittenGetFirstRecord(s: WfStore, key: string)
    requires key in s.index && s.index[key].pos == 0
    ensures AsWrittenStep(s, Request.Get(key)).1 == ConnServer.GetSent(Err("serialization failed"))
  {
    assert StoreGetAsWritten(s, key).1 == Failure(Serde);
  }

  /** Over the engine as written, on a fresh store over a healthy connection,
      `set k1`, `set k2` with `k2 != k1`, then `get k1` answers the `get` with
      `Err("serialization failed")`: the value just set is lost. */
  lemma AsWrittenLosesFirstKey(s0: WfStore, gen: LogEngine.Gen, reqs: seq<Result<Request, Error>>,
                               k1: string, v1: string, k2: string, v2: string)
    requires s0 == Fresh(gen) && k1 != k2
    requires |reqs| > 2 && reqs[0] == Success(Request.Set(k1, v1)) && reqs[1] == Success(Request.Set(k2, v2))
    requires reqs[2] == Success(Request.Get(k1))
    ensures var sent := Serve(AsWrittenStep, s0, reqs, Healthy, 0).sent;
      |sent| > 2 && sent[2] == ConnServer.GetSent(Err("serialization failed"))
  {
    TwoSetsLeaveFirstAtZero(s0, gen, reqs, k1, v1, k2, v2);
    var before := Serve(AsWrittenStep, s0, reqs[..2], Healthy, 0).state;
    AsWrittenGetFirstRecord(before, k1);
    ServeInOrder(AsWrittenStep, s0, reqs, Healthy, 0, 2);
  }

  /** The basic scenario over the engine as written: its `get a` after
      `set a=1` and `set b=2` is answered with `Err("serialization failed")`
      where the map answers `Some("1")`. */
  lemma AsWrittenScenarioLosesFirstKey(s0: WfStore)
    requires s0 == Fresh(1)
    ensures var sent := Serve(AsWrittenStep, s0, ScenarioRequests(), Healthy, 0).sent;
      |sent| > 2 && sent[2] == ConnServer.GetSent(Err("serialization failed"))
      && ScenarioResponses()[2] == ConnServer.GetSent(Ok(Some("1")))
  {
    AsWrittenLosesFirstKey(s0, 1, ScenarioRequests(), "a", "1", "b", "2");
  }
}

=== FILE: errors.dfy ===
/** The engine's error kinds and the text each one displays as.

    The variants are those of `StoreError` in project-4/src/lib.rs; the single
    variant of project-3's `KvsError` (project-3/src/error.rs) is `KeyNotFound`
    with the same text. */
module Errors {

  datatype Error =
    | KeyNotFound
    | Serde                      // a malformed or truncated encoding
    | UnexpectedCommand
    | Io(message: string)        // displayed transparently as the underlying message

  /** The `Display` text of an error, which is what reaches the wire. */
  function Display(e: Error): (text: string)
    ensures e.KeyNotFound? ==> text == "key not found"
    ensures e.Serde? ==> text == "serialization failed"
    ensures e.UnexpectedCommand? ==> text == "unexpected command"
    ensures e.Io? ==> text == e.message
    // the three fixed texts are distinct, so they tell the non-I/O kinds apart
    ensures !e.Io? ==> (text == "key not found" <==> e.KeyNotFound?)
  {
    match e
    case KeyNotFound => "key not found"
    case Serde => "serialization failed"
    case UnexpectedCommand => "unexpected command"
    case Io(message) => message
  }
}

=== FILE: kv_map.dfy ===
/** The in-memory store of project-1/src/kv.rs: a plain map from key to value.
    It is also the abstraction the log-structured engine is checked against
    (module Refinement). */
module KvMap {
  import opened Wrappers

  datatype KvStore = KvStore(entries: map<string, string>)

  /** `KvStore::new`: a store with no keys. */
  function New(): (s: KvStore)
    ensures forall k :: Get(s, k) == None
  {
    KvStore(map[])
  }

  /** `KvStore::get`: the value of `key`, or `None` when it was never set or was removed. */
  function Get(s: KvStore, key: string): (r: Option<string>)
    ensures r.Some? <==> key in s.entries
    ensures key in s.entries ==> r == Some(s.entries[key])
  {
    if key in s.entries then Some(s.entries[key]) else None
  }

  /** `KvStore::set`: afterwards `key` reads `value`, whether or not it was
      present before; every other key reads as it did. */
  function Set(s: KvStore, key: string, value: string): (r: KvStore)
    ensures Get(r, key) == Some(value)
    ensures forall k :: k != key ==> Get(r, k) == Get(s, k)
    ensures r.entries.Keys == s.entries.Keys + {key}
  {
    KvStore(s.entries[key := value])
  }

  /** `KvStore::remove`: afterwards `key` reads `None`; every other key reads
      as it did; removing an absent key changes nothing and is not an error. */
  function Remove(s: KvStore, key: string): (r: KvStore)
    ensures Get(r, key) == None
    ensures forall k :: k != key ==> Get(r, k) == Get(s, k)
    ensures key !in s.entries ==> r == s
    ensures r.entries.Keys == s.entries.Keys - {key}
  {
    KvStore(s.entries - {key})
  }

  /** A second `set` of the same key overwrites the first. */
  lemma SetOverwrites(s: KvStore, key: string, v1: string, v2: string)
    ensures Set(Set(s, key, v1), key, v2) == Set(s, key, v2)
  {
    assert Set(Set(s, key, v1), key, v2).entries == Set(s, key, v2).entries;
  }
}

=== FILE: log_engine.dfy ===
/** The log-structured engine `Store` of project-3/src/engine.rs.

    Each generation's log file is an in-memory byte sequence. The writer
    appends to the log of the current generation; every other generation is
    only read. The index maps each live key to the byte range of the record
    that set it. */
module LogEngine {
  import opened Wrappers
  import opened Codec
  import opened Errors

  type Gen = nat

  /** `CommandPosition`: where one record lives. */
  datatype CommandPosition = CommandPosition(gen: Gen, pos: nat, len: nat)

  /** `BufWriterWithPos`: only its byte count matters once buffering and
      flushing are the identity. */
  datatype PosWriter = PosWriter(pos: nat)

  datatype Store = Store(
    logs: map<Gen, seq<byte>>,                // one reader per generation, over that generation's log
    writer: PosWriter,
    index: map<string, CommandPosition>,
    uncompacted: nat,
    currentGen: Gen)

  /** An engine call's new state and its return value. */
  datatype Outcome<T> = Outcome(store: Store, result: Result<T, Error>)

  /** `CommandPosition::from((gen, start..end))`. */
  function FromRange(gen: Gen, start: nat, end: nat): (cp: CommandPosition)
    requires start <= end
    ensures cp.gen == gen && cp.pos == start && cp.pos + cp.len == end
  {
    CommandPosition(gen, start, end - start)
  }

  /** Every log of `s` is still there in `r`, with its bytes as a prefix:
      appending never disturbs a range that was already written. */
  predicate Extends(s: Store, r: Store) {
    forall g :: g in s.logs ==> g in r.logs && s.logs[g] <= r.logs[g]
  }

  /** The bytes of the log the writer appends to. */
  function CurrentLog(s: Store): seq<byte> {
    if s.currentGen in s.logs then s.logs[s.currentGen] else []
  }

  /** The `BufWriterWithPos::write` loop that `to_writer` drives: every byte
      of `buf` goes to the end of the current log and `pos` grows by exactly
      the bytes written. */
  function Append(s: Store, buf: seq<byte>): (r: Store)
    ensures r.writer.pos == s.writer.pos + |buf|
    ensures Extends(s, r)
    ensures r.currentGen in r.logs && r.logs[r.currentGen] == CurrentLog(s) + buf
    ensures forall g :: g != s.currentGen ==> (g in r.logs <==> g in s.logs)
    ensures forall g :: g in s.logs && g != s.currentGen ==> r.logs[g] == s.logs[g]
    ensures r.index == s.index && r.uncompacted == s.uncompacted && r.currentGen == s.currentGen
  {
    s.(logs := s.logs[s.currentGen := CurrentLog(s) + buf],
       writer := PosWriter(s.writer.pos + |buf|))
  }

  /** The bytes `[start, start + n)` of `log`, cut short at its end as a
      reader cut off by end-of-file would be. */
  function ReadRange(log: seq<byte>, start: nat, n: nat): (bs: seq<byte>)
    ensures |bs| == if start >= |log| then 0 else if start + n <= |log| then n else |log| - start
    ensures forall i :: 0 <= i < |bs| ==> bs[i] == log[start + i]
    ensures start + n <= |log| ==> bs == log[start..start + n]
  {
    if start >= |log| then []
    else if start + n <= |log| then log[start..start + n]
    else log[start..]
  }

  /** The bytes an index entry names. */
  function RecordBytes(s: Store, cp: CommandPosition): seq<byte>
    requires cp.gen in s.logs
  {
    ReadRange(s.logs[cp.gen], cp.pos, cp.len)
  }

  /** `Engine::set` (engine.rs:35-53): appends `Set{key, value}`, points the
      index at the bytes just written and counts the replaced entry as garbage. */
  function Set(s: Store, key: string, value: string): (r: Outcome<()>)
    ensures r.result == Success(())
    ensures r.store.writer.pos == s.writer.pos + |Encode(Command.Set(key, value))| > s.writer.pos
    ensures r.store.index == s.index[key := CommandPosition(s.currentGen, s.writer.pos, r.store.writer.pos - s.writer.pos)]
    ensures key in s.index ==> r.store.uncompacted == s.uncompacted + s.index[key].len
    ensures key !in s.index ==> r.store.uncompacted == s.uncompacted
    ensures forall k :: k != key ==> (k in r.store.index <==> k in s.index)
    ensures forall k :: k != key && k in s.index ==> r.store.index[k] == s.index[k]
    ensures CurrentLog(r.store) == CurrentLog(s) + Encode(Command.Set(key, value))
    ensures forall g :: g in s.logs && g != s.currentGen ==> g in r.store.logs && r.store.logs[g] == s.logs[g]
    ensures r.store.currentGen == s.currentGen
    ensures Extends(s, r.store)
  {
    var pos := s.writer.pos;
    var s1 := Append(s, Encode(Command.Set(key, value)));
    var entry := FromRange(s.currentGen, pos, s1.writer.pos);
    var garbage := if key in s.index then s.index[key].len else 0;
    Outcome(s1.(index := s.index[key := entry], uncompacted := s.uncompacted + garbage), Success(()))
  }

  /** Turns the record found at an index entry into `get`'s answer: the value
      of a `Set`, `None` for any other record, an error for bytes that do not
      decode. */
  function Answer(decoded: Option<Command>): (r: Result<Option<string>, Error>)
    ensures r == Failure(Serde) <==> decoded.None?
    ensures r.Success? && r.value.Some? <==> decoded.Some? && decoded.value.Set?
    ensures r.Success? && r.value.Some? ==> r.value.value == decoded.value.value
    ensures r == Success(None) <==> decoded.Some? && decoded.value.Remove?
  {
    match decoded
    case None => Failure(Serde)
    case Some(Set(_, value)) => Success(Some(value))
    case Some(Remove(_)) => Success(None)
  }

  /** `Engine::get` (engine.rs:55-73), reading the `len` bytes the index entry
      names. The source reads `cmd.pos` bytes instead (engine.rs:63); that
      version is `GetAsWritten` below. The reader lookup's `expect`
      (engine.rs:57) panics on a generation without a reader; here that is
      the precondition. */
  function Get(s: Store, key: string): (r: Result<Option<string>, Error>)
    requires key in s.index ==> s.index[key].gen in s.logs
    ensures key !in s.index ==> r == Success(None)
    ensures key in s.index ==> r == Answer(Decode(RecordBytes(s, s.index[key])))
  {
    if key in s.index then
      var cp := s.index[key];
      Answer(Decode(ReadRange(s.logs[cp.gen], cp.pos, cp.len)))
    else
      Success(None)
  }

  /** `Engine::get` as written: the read is limited to `cmd.pos` bytes
      (engine.rs:63), not `cmd.len`. */
  function GetAsWritten(s: Store, key: string): (r: Result<Option<string>, Error>)
    requires key in s.index ==> s.index[key].gen in s.logs
    ensures key !in s.index ==> r == Success(None)
    ensures key in s.index && s.index[key].pos == s.index[key].len ==> r == Get(s, key)
  {
    if key in s.index then
      var cp := s.index[key];
      Answer(Decode(ReadRange(s.logs[cp.gen], cp.pos, cp.pos)))
    else
      Success(None)
  }

  /** `Engine::remove` (engine.rs:74-90): a missing key is `KeyNotFound` and
      nothing changes; otherwise a `Remove{key}` tombstone is appended, the
      entry deleted and its length, but not the tombstone's, counted as
      garbage. */
  function Remove(s: Store, key: string): (r: Outcome<()>)
    ensures key !in s.index ==> r == Outcome(s, Failure(KeyNotFound))
    ensures key in s.index ==> r.result == Success(())
    ensures key in s.index ==> r.store.index == s.index - {key}
    ensures forall k :: k != key ==> (k in r.store.index <==> k in s.index)
    ensures forall k :: k != key && k in s.index ==> r.store.index[k] == s.index[k]
    ensures key in s.index ==> r.store.uncompacted == s.uncompacted + s.index[key].len
    ensures key in s.index ==> CurrentLog(r.store) == CurrentLog(s) + Encode(Command.Remove(key))
    ensures key in s.index ==> r.store.writer.pos == s.writer.pos + |Encode(Command.Remove(key))|
    ensures forall g :: g in s.logs && g != s.currentGen ==> g in r.store.logs && r.store.logs[g] == s.logs[g]
    ensures r.store.currentGen == s.currentGen
    ensures Extends(s, r.store)
  {
    if key in s.index then
      var s1 := Append(s, Encode(Command.Remove(key)));
      var removed := s.index[key];
      Outcome(s1.(index := s.index - {key}, uncompacted := s.uncompacted + removed.len), Success(()))
    else
      Outcome(s, Failure(KeyNotFound))
  }
}

=== FILE: pool_server.dfy ===
/** The free function `serve` of project-4/src/server.rs: one generic
    `Response<T>` type for every reply, written and flushed by the
    `send_resp!` macro. How `Server::run` hands connections to the thread
    pool is not part of this model. */
module PoolServer {
  import opened Wrappers
  import opened Errors
  import opened Protocol
  import opened Dispatch

  /** A reply as written on the stream: `Response<Option<String>>` for a get,
      `Response<()>` for a set or a remove. */
  datatype Reply = OptReply(opt: Response<Option<string>>) | UnitReply(unit: Response<()>)

  /** The `match req` arm of `serve` (server.rs:68-81). */
  function Respond<S>(engine: Engine<S>, st: S, req: Request): (r: (S, Reply))
    ensures req.Get? ==> r == (engine.getKey(st, req.key).0, OptReply(Flatten(engine.getKey(st, req.key).1)))
    ensures req.Set? ==> r == (engine.setKey(st, req.key, req.value).0, UnitReply(Flatten(engine.setKey(st, req.key, req.value).1)))
    ensures req.Remove? ==> r == (engine.removeKey(st, req.key).0, UnitReply(Flatten(engine.removeKey(st, req.key).1)))
  {
    match req
    case Get(key) =>
      var (st', result) := engine.getKey(st, key);
      (st', OptReply(match result case Success(value) => Ok(value) case Failure(err) => Err(Display(err))))
    case Set(key, value) =>
      var (st', result) := engine.setKey(st, key, value);
      (st', UnitReply(match result case Success(u) => assert u == (); Ok(()) case Failure(err) => Err(Display(err))))
    case Remove(key) =>
      var (st', result) := engine.removeKey(st, key);
      (st', UnitReply(match result case Success(u) => assert u == (); Ok(()) case Failure(err) => Err(Display(err))))
  }

  /** `serve` (server.rs:49-85) on a connection whose request stream decodes to `reqs`. */
  function ServeConnection<S>(engine: Engine<S>, st: S, reqs: seq<Result<Request, Error>>, link: Link): (r: Served<S, Reply>)
    ensures |r.sent| <= |reqs|
    ensures r.outcome.Success? <==> CleanUpTo(reqs, link, 0, |reqs|)
  {
    Serve((s, req) => Respond(engine, s, req), st, reqs, link, 0)
  }

  /** Exactly one reply per request, in request order, on a connection that
      decodes and writes cleanly; engine errors become `Err` replies and do
      not end the loop. A get is answered with a `Response<Option<String>>`
      and a set or remove with a `Response<()>`, the type the client reads
      back for that request. */
  lemma OneReplyPerRequest<S>(engine: Engine<S>, st: S, reqs: seq<Result<Request, Error>>, link: Link)
    requires forall i :: 0 <= i < |reqs| ==> reqs[i].Success? && link(i).None?
    ensures var r := ServeConnection(engine, st, reqs, link);
      && r.outcome.Success?
      && |r.sent| == |reqs|
      && (forall n :: 0 <= n < |reqs| ==>
           r.sent[n] == Respond(engine, ServeConnection(engine, st, reqs[..n], link).state, reqs[n].value).1)
      && (forall n :: 0 <= n < |reqs| ==> (r.sent[n].OptReply? <==> reqs[n].value.Get?))
  {
    var respond := (s, req) => Respond(engine, s, req);
    forall i | 0 <= i < |reqs| ensures CleanAt(reqs, link, 0, i) {
      assert 0 + i == i;
    }
    CleanUpToMeans(reqs, link, 0, |reqs|);
    forall n | 0 <= n < |reqs|
      ensures ServeConnection(engine, st, reqs, link).sent[n]
           == Respond(engine, ServeConnection(engine, st, reqs[..n], link).state, reqs[n].value).1
    {
      CleanUpToMeans(reqs, link, 0, n);
      assert 0 + n == n;
      ServeInOrder(respond, st, reqs, link, 0, n);
    }
  }

  /** A request that fails to decode aborts `serve` (server.rs:66); the
      requests after it are never processed. */
  lemma DecodeErrorAbortsServe<S>(engine: Engine<S>, st: S, reqs: seq<Result<Request, Error>>, link: Link, n: nat)
    requires n < |reqs| && reqs[n].Failure? && CleanUpTo(reqs, link, 0, n)
    ensures var before := ServeConnection(engine, st, reqs[..n], link);
      ServeConnection(engine, st, reqs, link) == Served(before.state, before.sent, Failure(reqs[n].error))
  {
    ServeStopsAtDecodeError((s, req) => Respond(engine, s, req), st, reqs, link, 0, n);
  }

  /** A failed write or flush of a reply aborts `serve` (server.rs:60-61)
      after the engine has run that request; the requests after it are never
      processed. */
  lemma WriteFailureAbortsServe<S>(engine: Engine<S>, st: S, reqs: seq<Result<Request, Error>>, link: Link, n: nat)
    requires n < |reqs| && reqs[n].Success? && link(n).Some? && CleanUpTo(reqs, link, 0, n)
    ensures var before := ServeConnection(engine, st, reqs[..n], link);
      ServeConnection(engine, st, reqs, link)
        == Served(Respond(engine, before.state, reqs[n].value).0, before.sent, Failure(link(n).value))
  {
    ServeStopsAtWriteFailure((s, req) => Respond(engine, s, req), st, reqs, link, 0, n);
  }
}

=== FILE: protocol.dfy ===
/** The wire values and the engine capability the servers drive.

    `Request` is the same in project-3/src/common.rs and project-4/src/api.rs;
    `Response<T>` is project-4's. Project-3's `GetResponse`, `SetResponse`
    and `RemoveResponse` are used by its server and client with the same two
    shapes, `Ok(payload)` and `Err(message)`, and appear here as instances of
    `Response`. */
module Protocol {
  import opened Wrappers
  import opened Errors

  datatype Request = Get(key: string) | Set(key: string, value: string) | Remove(key: string)

  datatype Response<+T> = Ok(value: T) | Err(message: string)

  type GetResponse = Response<Option<string>>
  type SetResponse = Response<()>
  type RemoveResponse = Response<()>

  /** The `Engine` capability as a state machine over `S`: each call returns
      the engine's next state and the call's result. The three fields are the
      trait's `get`, `set` and `remove`. */
  datatype Engine<!S> = Engine(
    getKey: (S, string) -> (S, Result<Option<string>, Error>),
    setKey: (S, string, string) -> (S, Result<(), Error>),
    removeKey: (S, string) -> (S, Result<(), Error>))

  /** The wire boundary: an engine result becomes a response, its error
      flattened to the error's display text. */
  function Flatten<T>(r: Result<T, Error>): (resp: Response<T>)
    ensures resp.Ok? <==> r.Success?
    ensures resp.Ok? ==> resp.value == r.value
    ensures resp.Err? ==> resp.message == Display(r.error)
  {
    match r
    case Success(v) => Ok(v)
    case Failure(e) => Err(Display(e))
  }
}

=== FILE: refinement.dfy ===
/** The log engine's invariant and its agreement with the plain map of
    project-1/src/kv.rs.

    `Wf` is the engine's central invariant: every index entry for a key names a
    range of its generation's log that decodes to a `Set` of that key, and the
    writer sits at the end of the current log. `Contents` reads the map a
    well-formed store represents; `set`, `get` and `remove` then act on it as
    `KvMap` does, except that `remove` of a missing key is an error here. */
module Refinement {
  import opened Wrappers
  import Codec
  import opened Errors
  import opened LogEngine
  import KvMap

  /** The entry for `key` names bytes inside its log that decode to `Set{key, _}`. */
  predicate EntryValid(s: Store, key: string)
    requires key in s.index
  {
    var cp := s.index[key];
    && cp.gen in s.logs
    && cp.pos + cp.len <= |s.logs[cp.gen]|
    && var d := Codec.Decode(s.logs[cp.gen][cp.pos..cp.pos + cp.len]);
       d.Some? && d.value.Set? && d.value.key == key
  }

  predicate Wf(s: Store) {
    && s.currentGen in s.logs
    && s.writer.pos == |s.logs[s.currentGen]|
    && forall key :: key in s.index ==> EntryValid(s, key)
  }

  /** A store over a single, empty log of generation `gen`: what opening a
      directory without logs yields (project-2/src/kv.rs:51-81). */
  function Fresh(gen: Gen): (s: Store)
    ensures Wf(s)
    ensures s.index == map[] && s.uncompacted == 0 && s.writer.pos == 0
    ensures s.currentGen == gen && s.logs == map[gen := []]
  {
    Store(map[gen := []], PosWriter(0), map[], 0, gen)
  }

  /** The value a `Set` record at `cp` carries. */
  function ValueAt(s: Store, cp: CommandPosition): string {
    if cp.gen in s.logs then
      var d := Codec.Decode(RecordBytes(s, cp));
      if d.Some? && d.value.Set? then d.value.value else ""
    else ""
  }

  /** The key-value map a store represents: each indexed key with the value
      of the record its entry names. */
  function Contents(s: Store): (m: KvMap.KvStore)
    ensures m.entries.Keys == s.index.Keys
  {
    KvMap.KvStore(map key | key in s.index :: ValueAt(s, s.index[key]))
  }

  /** The second invariant: entries in the current generation end at or
      before the writer position. */
  lemma CurrentEntriesBelowWriter(s: Store, key: string)
    requires Wf(s) && key in s.index && s.index[key].gen == s.currentGen
    ensures s.index[key].pos + s.index[key].len <= s.writer.pos
  {
    assert EntryValid(s, key);
  }

  /** An entry whose log has only grown still names the same bytes, so it
      stays valid and carries the same value. */
  lemma EntryStable(s: Store, r: Store, key: string)
    requires key in s.index && EntryValid(s, key)
    requires Extends(s, r) && key in r.index && r.index[key] == s.index[key]
    ensures EntryValid(r, key)
    ensures ValueAt(r, r.index[key]) == ValueAt(s, s.index[key])
  {
    var cp := s.index[key];
    var old_log, new_log := s.logs[cp.gen], r.logs[cp.gen];
    assert old_log <= new_log;
    assert new_log[cp.pos..cp.pos + cp.len] == old_log[cp.pos..cp.pos + cp.len];
    assert RecordBytes(r, cp) == RecordBytes(s, cp);
  }

  /** A well-formed store answers `get` from its contents. */
  lemma GetRefines(s: Store, key: string)
    requires Wf(s)
    ensures key in s.index ==> s.index[key].gen in s.logs
    ensures Get(s, key) == Success(KvMap.Get(Contents(s), key))
  {
    if key in s.index {
      assert EntryValid(s, key);
    }
  }

  /** The bytes appended at the end of a log are read back from where they start. */
  lemma AppendedRange(log: seq<Codec.byte>, buf: seq<Codec.byte>)
    ensures ReadRange(log + buf, |log|, |buf|) == buf
  {
    assert (log + buf)[|log|..|log| + |buf|] == buf;
  }

  /** The entry `set` writes names its own freshly appended record. */
  lemma SetEntryValid(s: Store, key: string, value: string)
    requires Wf(s)
    ensures var r := Set(s, key, value).store;
      key in r.index && EntryValid(r, key) && ValueAt(r, r.index[key]) == value
  {
    var r := Set(s, key, value).store;
    var c := Codec.Command.Set(key, value);
    var enc := Codec.Encode(c);
    var cp := r.index[key];
    assert cp == CommandPosition(s.currentGen, |CurrentLog(s)|, |enc|);
    assert r.logs[cp.gen] == CurrentLog(s) + enc;
    AppendedRange(CurrentLog(s), enc);
    assert RecordBytes(r, cp) == enc;
    Codec.DecodeEncode(c);
  }

  /** Two stores whose entries carry the same values, but for `key`, whose
      value in `r` is `value`, differ in contents by a plain-map `set`. */
  lemma ContentsAfterSet(s: Store, r: Store, key: string, value: string)
    requires r.index.Keys == s.index.Keys + {key}
    requires key in r.index && ValueAt(r, r.index[key]) == value
    requires forall k :: k in r.index && k != key ==> ValueAt(r, r.index[k]) == ValueAt(s, s.index[k])
    ensures Contents(r) == KvMap.Set(Contents(s), key, value)
  {
    var m, m' := Contents(r).entries, Contents(s).entries[key := value];
    forall k | k in m ensures m[k] == m'[k] {}
    assert m == m';
  }

  /** Two stores whose entries carry the same values and whose index differs
      only by the removal of `key` differ in contents by a plain-map `remove`. */
  lemma ContentsAfterRemove(s: Store, r: Store, key: string)
    requires r.index.Keys == s.index.Keys - {key}
    requires forall k :: k in r.index ==> ValueAt(r, r.index[k]) == ValueAt(s, s.index[k])
    ensures Contents(r) == KvMap.Remove(Contents(s), key)
  {
    var m, m' := Contents(r).entries, Contents(s).entries - {key};
    forall k | k in m ensures m[k] == m'[k] {}
    assert m == m';
  }

  /** `set` keeps the invariant and updates the contents as the plain map's `set` does. */
  lemma {:induction false} SetRefines(s: Store, key: string, value: string)
    requires Wf(s)
    ensures Wf(Set(s, key, value).store)
    ensures Contents(Set(s, key, value).store) == KvMap.Set(Contents(s), key, value)
  {
    var r := Set(s, key, value).store;
    SetEntryValid(s, key, value);
    forall k | k in r.index && k != key
      ensures EntryValid(r, k) && ValueAt(r, r.index[k]) == ValueAt(s, s.index[k])
    {
      assert EntryValid(s, k);
      EntryStable(s, r, k);
    }
    ContentsAfterSet(s, r, key, value);
  }

  /** `remove` keeps the invariant; it succeeds exactly when the key has a
      value, and then removes it from the contents as the plain map's
      `remove` does. On a missing key the plain map does nothing while the
      engine reports `KeyNotFound`, also without changing anything. */
  lemma {:induction false} RemoveRefines(s: Store, key: string)
    requires Wf(s)
    ensures Wf(Remove(s, key).store)
    ensures Remove(s, key).result.Success? <==> KvMap.Get(Contents(s), key).Some?
    ensures Remove(s, key).result.Failure? ==> Remove(s, key).result.error == KeyNotFound
    ensures Contents(Remove(s, key).store) == KvMap.Remove(Contents(s), key)
  {
    var r := Remove(s, key).store;
    if key in s.index {
      var enc := Codec.Encode(Codec.Command.Remove(key));
      forall k | k in r.index
        ensures EntryValid(r, k) && ValueAt(r, r.index[k]) == ValueAt(s, s.index[k])
      {
        assert EntryValid(s, k);
        EntryStable(s, r, k);
      }
      ContentsAfterRemove(s, r, key);
    }
  }

  /** The read limit of engine.rs:63 loses the first record of every log:
      such a record sits at offset 0, so `take(cmd.pos)` yields no bytes and
      the decode fails, while on a well-formed store reading `len` bytes
      answers the key's value. */
  lemma GetAsWrittenLosesFirstRecord(s: Store, key: string)
    requires key in s.index && s.index[key].gen in s.logs && s.index[key].pos == 0
    ensures GetAsWritten(s, key) == Failure(Serde)
    ensures Wf(s) ==> Get(s, key) == Success(Some(Contents(s).entries[key]))
  {
    assert ReadRange(s.logs[s.index[key].gen], 0, 0) == [];
    Codec.DecodeEmpty();
    if Wf(s) {
      GetRefines(s, key);
    }
  }

  /** Concretely: on a fresh store, `set(key, value)` followed by `get(key)`
      is a serialization error as written, while reading `len` bytes answers
      `Some(value)`. */
  lemma FirstSetIsLost(gen: Gen, key: string, value: string)
    ensures var r := Set(Fresh(gen), key, value).store;
      && GetAsWritten(r, key) == Failure(Serde)
      && Get(r, key) == Success(Some(value))
  {
    var r := Set(Fresh(gen), key, value).store;
    SetRefines(Fresh(gen), key, value);
    assert r.index[key].pos == 0;
    GetAsWrittenLosesFirstRecord(r, key);
    assert Contents(r).entries[key] == value;
  }
}

=== FILE: replay.dfy ===
/** `KvStore::open` of project-2/src/kv.rs (lines 51-81): the fold that
    rebuilds the index by replaying every generation in ascending order.

    Listing and sorting the directory (`sort_generation`) and replaying one
    log (`load`) have no body in the source; the listing is an input and
    `load` a function parameter. Creating the new writer (`new_log`) is not
    part of this model. */
module Replay {
  import opened Wrappers
  import opened Errors

  type Gen = nat

  /** `CommandPos`. */
  datatype CommandPos = CommandPos(generation: Gen, position: nat, length: nat)

  type Index = map<string, CommandPos>

  /** `Reader`: a buffered reader over `<generation>.log` and its offset. */
  datatype Reader = Reader(generation: Gen, position: nat)

  /** What one `load` call leaves behind: the reader it advanced, the index
      it updated, and the garbage bytes it counted. */
  datatype Loaded = Loaded(reader: Reader, index: Index, garbage: nat)

  type Loader = (Gen, Reader, Index) -> Result<Loaded, Error>

  /** The store state `open` builds, short of its writer. */
  datatype Opened = Opened(readers: map<Gen, Reader>, index: Index, uncompacted: nat, current: Gen)

  /** `Reader::new(File::open(log))`: a freshly opened file is at offset 0. */
  function NewReader(gen: Gen): Reader {
    Reader(gen, 0)
  }

  /** The index handed to the call after `loads`: the index the last call
      left, or the empty index before the first call. */
  function IndexAfter(loads: seq<Loaded>): Index {
    if |loads| == 0 then map[] else loads[|loads| - 1].index
  }

  /** The garbage all of `loads` counted. */
  function SumGarbage(loads: seq<Loaded>): nat {
    if |loads| == 0 then 0 else SumGarbage(loads[..|loads| - 1]) + loads[|loads| - 1].garbage
  }

  /** The `load` calls for the first `n` generations, in list order, each one
      given the index the previous one left; or the error of the first call
      that fails. */
  function Loads(gens: seq<Gen>, load: Loader, n: nat): (r: Result<seq<Loaded>, Error>)
    requires n <= |gens|
    ensures r.Success? ==> |r.value| == n
  {
    if n == 0 then Success([])
    else
      match Loads(gens, load, n - 1)
      case Failure(e) => Failure(e)
      case Success(prev) =>
        match load(gens[n - 1], NewReader(gens[n - 1]), IndexAfter(prev))
        case Failure(e) => Failure(e)
        case Success(l) => Success(prev + [l])
  }

  /** Call `i` of a successful replay of `n` generations replays generation
      `i` of the list with a fresh reader and the index call `i - 1` left
      (the empty index for the first call), and it succeeded. */
  lemma {:induction false} LoadsCall(gens: seq<Gen>, load: Loader, n: nat, i: nat)
    requires i < n <= |gens| && Loads(gens, load, n).Success?
    ensures var loads := Loads(gens, load, n).value;
      load(gens[i], NewReader(gens[i]), IndexAfter(loads[..i])) == Success(loads[i])
    decreases n
  {
    var prev := Loads(gens, load, n - 1).value;
    var loads := Loads(gens, load, n).value;
    assert loads == prev + [loads[n - 1]];
    if i < n - 1 {
      LoadsCall(gens, load, n - 1, i);
      assert loads[..i] == prev[..i];
    } else {
      assert loads[..i] == prev;
    }
  }

  /** One index is threaded through all the calls of a successful replay. */
  lemma LoadsThreadIndex(gens: seq<Gen>, load: Loader, n: nat)
    requires n <= |gens| && Loads(gens, load, n).Success?
    ensures var loads := Loads(gens, load, n).value;
      forall i :: 0 <= i < n ==>
        load(gens[i], NewReader(gens[i]), IndexAfter(loads[..i])) == Success(loads[i])
  {
    forall i | 0 <= i < n
      ensures load(gens[i], NewReader(gens[i]), IndexAfter(Loads(gens, load, n).value[..i]))
           == Success(Loads(gens, load, n).value[i])
    {
      LoadsCall(gens, load, n, i);
    }
  }

  /** Extending the replay by one successful call. */
  lemma LoadsStep(gens: seq<Gen>, load: Loader, i: nat, loads: seq<Loaded>, l: Loaded)
    requires i < |gens| && Loads(gens, load, i) == Success(loads)
    requires load(gens[i], NewReader(gens[i]), IndexAfter(loads)) == Success(l)
    ensures Loads(gens, load, i + 1) == Success(loads + [l])
    ensures IndexAfter(loads + [l]) == l.index
    ensures SumGarbage(loads + [l]) == SumGarbage(loads) + l.garbage
  {
    assert (loads + [l])[..|loads|] == loads;
  }

  /** Once a `load` call fails, replaying more generations never runs: the
      failure is final. */
  lemma {:induction false} LoadsFailurePersists(gens: seq<Gen>, load: Loader, n: nat, m: nat)
    requires n <= m <= |gens|
    requires Loads(gens, load, n).Failure?
    ensures Loads(gens, load, m) == Loads(gens, load, n)
    decreases m
  {
    if m > n {
      LoadsFailurePersists(gens, load, n, m - 1);
    }
  }

  /** A call that fails after `i` successful ones is the error of the whole
      replay. */
  lemma LoadsStopsAt(gens: seq<Gen>, load: Loader, i: nat, loads: seq<Loaded>, e: Error)
    requires i < |gens| && Loads(gens, load, i) == Success(loads)
    requires load(gens[i], NewReader(gens[i]), IndexAfter(loads)) == Failure(e)
    ensures Loads(gens, load, |gens|) == Failure(e)
  {
    assert Loads(gens, load, i + 1) == Failure(e);
    LoadsFailurePersists(gens, load, i + 1, |gens|);
  }

  /** The new writer's generation: one past the last listed generation, or 1
      when there are none (kv.rs:70). */
  function NextGen(gens: seq<Gen>): Gen {
    if |gens| == 0 then 1 else gens[|gens| - 1] + 1
  }

  predicate StrictlyAscending(gens: seq<Gen>) {
    forall i, j :: 0 <= i < j < |gens| ==> gens[i] < gens[j]
  }

  /** The first `n` listed generations. */
  function Listed(gens: seq<Gen>, n: nat): set<Gen>
    requires n <= |gens|
  {
    set j | 0 <= j < n :: gens[j]
  }

  /** The readers `open` has made for the first `n` generations: each is the
      reader its `load` left, when no generation is listed twice. */
  predicate ReadersMatch(gens: seq<Gen>, readers: map<Gen, Reader>, loads: seq<Loaded>, n: nat)
    requires n <= |gens| && n <= |loads|
  {
    && readers.Keys == Listed(gens, n)
    && (StrictlyAscending(gens) ==> forall j :: 0 <= j < n ==> readers[gens[j]] == loads[j].reader)
  }

  /** Adding the reader of generation `n` keeps the readers in step. */
  lemma ReadersStep(gens: seq<Gen>, readers: map<Gen, Reader>, loads: seq<Loaded>, n: nat, l: Loaded)
    requires n < |gens| && n == |loads| && ReadersMatch(gens, readers, loads, n)
    ensures ReadersMatch(gens, readers[gens[n] := l.reader], loads + [l], n + 1)
  {
    var readers', loads' := readers[gens[n] := l.reader], loads + [l];
    assert Listed(gens, n + 1) == Listed(gens, n) + {gens[n]};
    if StrictlyAscending(gens) {
      forall j | 0 <= j < n + 1 ensures readers'[gens[j]] == loads'[j].reader {
        if j < n {
          assert gens[j] < gens[n];
          assert loads'[j] == loads[j];
        }
      }
    }
  }

  /** With the generations listed in ascending order, the new writer's
      generation is newer than every existing one. */
  lemma NextGenIsNewest(gens: seq<Gen>)
    requires forall i, j :: 0 <= i < j < |gens| ==> gens[i] <= gens[j]
    ensures NextGen(gens) >= 1
    ensures forall i :: 0 <= i < |gens| ==> gens[i] < NextGen(gens)
  {
  }

  /** `KvStore::open`: replays each listed generation through `load` in order,
      threading one index through the calls, summing the garbage they report
      and keeping one reader per generation. An error from the listing or
      from any `load` ends `open` with that error. */
  method Open(listing: Result<seq<Gen>, Error>, load: Loader) returns (r: Result<Opened, Error>)
    ensures listing.Failure? ==> r == Failure(listing.error)
    ensures listing.Success? ==> (r.Success? <==> Loads(listing.value, load, |listing.value|).Success?)
    ensures listing.Success? && r.Failure? ==> Loads(listing.value, load, |listing.value|) == Failure(r.error)
    ensures r.Success? ==>
      var gens, loads := listing.value, Loads(listing.value, load, |listing.value|).value;
      && r.value.index == IndexAfter(loads)
      && r.value.uncompacted == SumGarbage(loads)
      && r.value.current == NextGen(gens)
      && r.value.readers.Keys == (set i | 0 <= i < |gens| :: gens[i])
      && (StrictlyAscending(gens) ==> forall i :: 0 <= i < |gens| ==> r.value.readers[gens[i]] == loads[i].reader)
    ensures listing == Success([]) ==> r == Success(Opened(map[], map[], 0, 1))
  {
    if listing.Failure? {
      return Failure(listing.error);
    }
    var gens := listing.value;
    var readers: map<Gen, Reader> := map[];
    var index: Index := map[];
    var uncompacted: nat := 0;
    ghost var loads: seq<Loaded> := [];
    var i := 0;
    while i < |gens|
      invariant 0 <= i <= |gens|
      invariant Loads(gens, load, i) == Success(loads)
      invariant index == IndexAfter(loads)
      invariant uncompacted == SumGarbage(loads)
      invariant |loads| == i && ReadersMatch(gens, readers, loads, i)
    {
      var generation := gens[i];
      var reader := NewReader(generation);
      var loaded := load(generation, reader, index);
      if loaded.Failure? {
        LoadsStopsAt(gens, load, i, loads, loaded.error);
        return Failure(loaded.error);
      }
      var l := loaded.value;
      LoadsStep(gens, load, i, loads, l);
      ReadersStep(gens, readers, loads, i, l);
      loads := loads + [l];
      index := l.index;
      uncompacted := uncompacted + l.garbage;
      readers := readers[generation := l.reader];
      i := i + 1;
    }
    assert Listed(gens, |gens|) == set j | 0 <= j < |gens| :: gens[j];
    var current := NextGen(gens);
    return Success(Opened(readers, index, uncompacted, current));
  }
}

=== FILE: wrappers.dfy ===
/** Option and Result, the two failure-carrying shapes the Rust code uses
    (`Option<T>` and `Result<T, E>`). */
module Wrappers {

  datatype Option<+T> = None | Some(value: T)

  /** Rust's `Result<T, E>`: `Success` is `Ok`, `Failure` is `Err`. */
  datatype Result<+T, +E> = Success(value: T) | Failure(error: E)
}
